=== FILE: README.md ===
# Team tasks and chat: the decision rules of the front-end

This project models, in Dafny, the rules of a small team app's front-end:
task creation, the dashboard lists, chat creation and the chat-room view.
The rules sit inside four React components. Each one becomes immutable
datatypes and pure functions. The hosted store (Supabase) and the query
cache (react-query) become parameters and a small map from query keys to
staleness.

- `Entities` (`entities.dfy`): nullable values (`Option`), thrown errors (`Result`), ids, profiles,
  task enumerations, and the JavaScript `||` and `!!user?.id` tests on nullable strings.
- `Text` (`text.dfy`): `String.prototype.trim` over the exact ECMAScript whitespace and
  line-terminator set, and the decimal rendering of a count in a template literal.
- `Seqs` (`seqs.dfy`): order-preserving `filter`, removal of one value, and dropping the nulls from a list.
- `QueryCache` (`query_cache.dfy`): query keys and `invalidateQueries`. A key matches every cached
  key it is a prefix of, and matching queries are marked stale.
- `CreateChat` (`create_chat.dfy`): the "Start New Chat" dialog. It covers validation, the rows it
  inserts, the selection state machine, the button rule and what happens after a submit.
- `ChatRoom` (`chat_room.dfy`): other members, header title and subtitle, own-message and
  sender-label rules, the trim gate on sending, and the effect of a successful send.
- `TaskForm` (`task_form.dfy`): the row the task dialog inserts, its reset, and the assignee list
  built from the viewer's groups.
- `Dashboard` (`dashboard.dfy`): the two task queries as filter, sort (due date ascending, undated
  last) and limit 3 over an in-memory task table.

Behaviour of the code worth knowing:

- Chat creation always inserts a new chatroom. Direct chats are not de-duplicated per user pair.
- A blank message is silently not sent. No error value is produced.
- Chatroom creation is two separate inserts. If the members insert fails, the chatroom row has
  already been written (`CreateChat.MembersFailureLeavesRoom`).
- Toggling a selected user off and on again in group mode moves that user to the end of the
  selection. The set of users is restored, but not the order (`CreateChat.ToggleTwiceRestoresPresent`).
- A group chat's name is validated after trimming but stored as typed.
- The task title input is `required`, so the browser's constraint validation never lets an empty
  title reach the submit handler (`TaskForm.SubmitTask`). The chat-name input is `required` in group
  mode too. The model does not add that check separately, because `CreateChat.Validate` already
  rejects every blank name, the empty one included.
- A message is inserted only with a session: without one, reading the sender's id throws, so
  nothing is written and the input is kept (`ChatRoom.Send`).
- A failed dashboard select shows an empty list, not an error (`Dashboard.MyTasks`).

## Model

| member | source | states |
|---|---|---|
| CreateChat.Validate | src/components/CreateChatModal.tsx:36-41 | a request passes exactly when it is direct with one selected user, or group with a name that is not all whitespace and at least one user; each failing mode reports its own error |
| CreateChat.RejectedRequestWritesNothing | src/components/CreateChatModal.tsx:36-41 | a request that fails validation issues no store write and fails with the error of its mode |
| CreateChat.RoomRow | src/components/CreateChatModal.tsx:46-50 | the chatroom row is named 'Direct Message' when direct and the entered name otherwise; `is_direct` is the mode and `created_by` the creator |
| CreateChat.MemberRows | src/components/CreateChatModal.tsx:57-60 | the membership rows are the creator first, then each selected user in order, all with the new room's id; there are 1 + (number selected) of them |
| CreateChat.MemberRowsRecoverUsers | src/components/CreateChatModal.tsx:57-60 | projecting the membership rows to user ids gives back the creator followed by the selection, and every row carries the new room id |
| CreateChat.Create | src/components/CreateChatModal.tsx:35-68 | creation succeeds iff the request is valid, someone is signed in and both inserts succeed; on success it writes the chatroom row, then the member rows, and returns the store's id; with no session nothing is written |
| CreateChat.MembersFailureLeavesRoom | src/components/CreateChatModal.tsx:44-66 | when the members insert fails, the creation fails although the chatroom row was already written |
| CreateChat.Toggle | src/components/CreateChatModal.tsx:88-98 | in direct mode the selection becomes exactly the toggled user; in group mode an unselected user is appended at the end, and a selected user's occurrences are deleted with the rest kept in order; no other user's membership changes |
| CreateChat.ToggleKeepsDistinct | src/components/CreateChatModal.tsx:92-96 | toggling keeps a duplicate-free selection duplicate-free |
| CreateChat.ToggleTwiceRestoresAbsent | src/components/CreateChatModal.tsx:92-96 | in group mode, toggling an unselected user twice restores the selection exactly |
| CreateChat.ToggleTwiceRestoresPresent | src/components/CreateChatModal.tsx:92-96 | in group mode, toggling a selected user twice restores the same multiset of users, with that user now last |
| CreateChat.SetDirect | src/components/CreateChatModal.tsx:124-127 | changing the direct-message checkbox sets the mode and empties the selection, keeping the name |
| CreateChat.Close | src/components/CreateChatModal.tsx:105-110 | closing resets the name to empty, the selection to empty and the mode to direct |
| CreateChat.SubmitEnabled | src/components/CreateChatModal.tsx:173 | the submit button is enabled iff no creation is pending and at least one user is selected |
| CreateChat.SubmitDisabledWhen | src/components/CreateChatModal.tsx:173 | the submit button is disabled exactly when a creation is pending or nothing is selected |
| CreateChat.StepKeepsReachable | src/components/CreateChatModal.tsx:88-127 | each user interaction keeps the selection duplicate-free and at most one user long in direct mode |
| CreateChat.RunKeepsReachable | src/components/CreateChatModal.tsx:88-127 | any sequence of interactions keeps that invariant |
| CreateChat.DirectSubmitPassesValidation | src/components/CreateChatModal.tsx:173 | in direct mode, whenever the submit button is enabled the request passes validation |
| CreateChat.Submit | src/components/CreateChatModal.tsx:70-86 | after a successful creation the dialog is reset and the chat list key is invalidated; after a failure form and cache are unchanged |
| CreateChat.SubmitLeavesTasksAlone | src/components/CreateChatModal.tsx:70-76 | creating a chat leaves both task lists and every room's messages as cached |
| ChatRoom.OtherMembers | src/components/ChatRoom.tsx:123-125 | the other members are the order-preserving sub-list of members whose id differs from the viewer's, each kept as often as it occurs; with no session, all members |
| ChatRoom.DisplayName | src/components/ChatRoom.tsx:127-129 | a group room shows its name, a room not yet loaded shows nothing, and a direct room always shows a non-empty title |
| ChatRoom.DirectDisplayNameChain | src/components/ChatRoom.tsx:127-128 | a direct room's title is the first other member's full name, else their email, else 'Unknown User', with empty strings falling through |
| ChatRoom.Subtitle | src/components/ChatRoom.tsx:147 | the subtitle is 'Direct message' for a direct room and otherwise the decimal member count (0 when absent) followed by ' members' |
| ChatRoom.SubtitleDeterminesCount | src/components/ChatRoom.tsx:147 | two non-direct rooms with the same subtitle have the same member count |
| ChatRoom.IsOwnMessage | src/components/ChatRoom.tsx:156 | a message is the viewer's own iff a session is present and the sender id equals the viewer's id |
| ChatRoom.ShowsSenderLabel | src/components/ChatRoom.tsx:169 | the sender line is shown iff the message is not the viewer's own and the room is not known to be direct |
| ChatRoom.SenderLabel | src/components/ChatRoom.tsx:171 | the sender line is the sender's full name when non-empty, else their email |
| ChatRoom.SenderLabelRule | src/components/ChatRoom.tsx:156-171 | in a loaded group room, a message whose sender is any member other than the viewer carries a sender line; the viewer's own messages never do; in a direct room no message does |
| ChatRoom.MessageToSend | src/components/ChatRoom.tsx:89-93 | nothing is sent iff the input is all whitespace; otherwise the content is the trimmed input, non-empty and without whitespace at either end |
| ChatRoom.SendEnabled | src/components/ChatRoom.tsx:197 | the send button is enabled iff the trimmed input is non-empty and no send is pending |
| ChatRoom.SendGate | src/components/ChatRoom.tsx:197 | an enabled send button always yields content, and an all-whitespace input neither enables it nor yields content |
| ChatRoom.SentContentIsStable | src/components/ChatRoom.tsx:92 | the content sent is already trimmed: gating it again yields the same content |
| ChatRoom.SettleSend | src/components/ChatRoom.tsx:75-86 | a successful send empties the input and marks this room's message queries stale, leaving other queries as they were; a failed send changes nothing |
| ChatRoom.SendTouchesOnlyItsRoom | src/components/ChatRoom.tsx:77 | a send in one room leaves another room's cached messages untouched |
| ChatRoom.Send | src/components/ChatRoom.tsx:59-93 | a blank input inserts nothing; without a session the insert throws, so nothing is written and the input and cache are kept; otherwise the inserted row carries the room, the viewer as sender and the trimmed content, and the store's verdict settles it |
| ChatRoom.SendClearsInput | src/components/ChatRoom.tsx:75-92 | after a message goes through the input is empty, so submitting again sends nothing |
| TaskForm.BuildTask | src/components/TaskModal.tsx:81-96 | no row without a signed-in user; otherwise the row has the title, 'me' resolved to the viewer, the viewer as creator, pending status, copied priority and repeat, and a null due date iff the input is empty |
| TaskForm.SignedInAlwaysBuilds | src/components/TaskModal.tsx:83-93 | with a signed-in user and a date conversion that does not throw, a row is always produced |
| TaskForm.SubmitTask | src/components/TaskModal.tsx:118-126 | the submit handler runs iff the required title is non-empty, so no task is ever inserted with an empty title |
| TaskForm.Reset | src/components/TaskModal.tsx:98-105 | closing resets title to '', assignee to 'me', due date to '', priority to normal and repeat to none |
| TaskForm.ResetThenTitleBuildsPersonalTask | src/components/TaskModal.tsx:81-105 | a freshly reset form cannot be submitted (empty title); once a title is typed it builds an undated, normal, non-repeating pending task assigned to and created by the viewer |
| TaskForm.SettleCreate | src/components/TaskModal.tsx:62-70 | a successful creation marks stale every cached query under the my-tasks and group-tasks prefixes, for every user, keeps every other query's freshness and resets the form; a failure changes nothing |
| TaskForm.CreateLeavesChatsAlone | src/components/TaskModal.tsx:67-68 | creating a task leaves the chat list and every room's messages as cached |
| TaskForm.SettleCreateIdempotent | src/components/TaskModal.tsx:67-68 | settling a second success changes nothing more in the cache |
| TaskForm.Groups | src/components/TaskModal.tsx:46 | the group list is the joined groups in row order, each as often as it is joined, with the null joins dropped |
| TaskForm.GroupsAllJoined | src/components/TaskModal.tsx:46 | when every row's join found its group, the list is exactly the rows' groups in order |
| TaskForm.UserGroups | src/components/TaskModal.tsx:29-49 | without a signed-in user or without data the group list is empty; otherwise it is the in-order group list of the returned rows |
| TaskForm.Profiles | src/components/TaskModal.tsx:108 | a group's choices are its members' non-null profiles, in member order and with their multiplicity |
| TaskForm.AllMembers | src/components/TaskModal.tsx:107-109 | a profile is offered iff it is a non-null member profile of one of the groups |
| TaskForm.AllMembersOne | src/components/TaskModal.tsx:107-109 | one group contributes exactly its members' non-null profiles, in member order; with the append law this fixes the whole list |
| TaskForm.AllMembersAppend | src/components/TaskModal.tsx:107-109 | the assignee list of two runs of groups is the first run's list followed by the second's |
| TaskForm.AllMembersBound | src/components/TaskModal.tsx:107-109 | there are never more assignee choices than membership rows |
| Dashboard.SortByDue | src/pages/Dashboard.tsx:29 | the ordering is a permutation sorted by due date ascending with undated tasks last |
| Dashboard.SortedPrefixClosed | src/pages/Dashboard.tsx:29-30 | a limited prefix of a sorted list holds every task due strictly earlier than one of its members |
| Dashboard.Top | src/pages/Dashboard.tsx:27-30 | a filtered, ordered, limited list is sorted, drawn from the qualifying tasks, exactly min(3, qualifying) long, never skips an earlier qualifying task for a later one, and lists every qualifying task when fewer than 3 qualify |
| Dashboard.TopFacts | src/pages/Dashboard.tsx:29-30 | any sorted order of the qualifying tasks, however ties are broken, limited to 3 gives a sorted sub-multiset of exactly min(3, qualifying) tasks that never skips an earlier qualifying task |
| Dashboard.IsMyTask | src/pages/Dashboard.tsx:27-28 | a task qualifies for 'my tasks' iff it is assigned to the viewer and pending |
| Dashboard.IsGroupTask | src/pages/Dashboard.tsx:48-50 | a task qualifies for 'group tasks' iff it is assigned to someone else, pending, and has a group |
| Dashboard.MyTasks | src/pages/Dashboard.tsx:15-34 | without a session or when the select fails the list is empty; otherwise 'my tasks' are pending, assigned to the viewer, no row more often than the table holds it, exactly min(3, qualifying) of them, sorted by due date, with no earlier qualifying task left out |
| Dashboard.GroupTasks | src/pages/Dashboard.tsx:36-56 | without a session or when the select fails the list is empty; otherwise 'group tasks' are pending, assigned to someone else, in a group, no row more often than the table holds it, exactly min(3, qualifying) of them, sorted by due date, with no earlier qualifying task left out |
| Dashboard.MyTasksAllWhenFew | src/pages/Dashboard.tsx:27-30 | when fewer than 3 of the viewer's tasks are pending, the list shows all of them |
| Dashboard.ListsDisjoint | src/pages/Dashboard.tsx:27-50 | no task appears in both lists |
| Text.Trim | src/components/ChatRoom.tsx:91-92 | trimming leaves the infix of the input padded only by whitespace, empty iff the input is all whitespace, and otherwise without whitespace at either end |
| Text.TrimIdempotent | src/components/ChatRoom.tsx:92 | trimming twice equals trimming once |
| Text.Decimal | src/components/ChatRoom.tsx:147 | a count renders as a non-empty string of digits with no leading zero |
| Text.DecimalRoundTrip | src/components/ChatRoom.tsx:147 | reading the rendered count back yields the count |
| Seqs.Filter | src/components/ChatRoom.tsx:123-125 | filtering keeps exactly the elements that pass, in order, as a sub-multiset |
| Seqs.FilterMultiset | src/components/ChatRoom.tsx:123-125 | filtering keeps every passing occurrence: each passing value appears exactly as often as in the input, a failing value not at all |
| Seqs.Remove | src/components/CreateChatModal.tsx:94 | removing an id keeps every other element, in order, and drops all of its occurrences |
| Seqs.RemoveMultiset | src/components/CreateChatModal.tsx:94 | removal deletes exactly the occurrences of the id |
| Seqs.Somes | src/components/TaskModal.tsx:108 | dropping the nulls keeps every present value in its original order and with its multiplicity |
| Seqs.SomesOfLift | src/components/TaskModal.tsx:46 | a list with no nulls passes through unchanged |
| QueryCache.Invalidate | src/components/ChatRoom.tsx:77 | invalidating a key marks stale exactly the cached queries it prefixes, leaving the rest as they were |
| Entities.OrElse | src/components/ChatRoom.tsx:128 | `a or b` on nullable strings is `a` when it is a non-empty string and `b` otherwise |

## Left out

- Supabase inserts, selects and `.single()` are network I/O. Each store call is a parameter: the reply the store gives (an id, the selected rows, or an error).
- React-query fetching, refetch timing and caching policy are not modelled. Only `invalidateQueries` is, as marking keys stale.
- The realtime `postgres_changes` subscription and its channel teardown (src/components/ChatRoom.tsx:96-116) are asynchronous and concurrent, so they are not modelled. The handler itself only invalidates the same messages key as a successful send.
- `new Date(...).toISOString()` is a parameter function. It returns nothing where JavaScript throws on an unparsable date. `formatDistanceToNow` is presentation only.
- Toasts, dialogs, scrolling, `console.error` and styling are presentation, so they are not modelled. So are the parent's `onClose` callbacks.
- Mutation pending flags come from react-query's runtime, so they are boolean parameters.
- TaskList, Header, BottomNav, Layout, Settings and Chats render data without rules of their own, so they are not modelled.
- Dashboard.SortByDue: the database leaves the order of tasks with equal due dates unspecified. The model fixes one order; `Dashboard.TopFacts` proves the list's properties for every sorted order.
- Dashboard.Task: the model assumes `assigned_to` is never null, because the only insert of a task (src/components/TaskModal.tsx:87) always sets it to a user id. So SQL's NULL semantics for `.not('assigned_to', 'eq', …)` is not modelled: a task with a null assignee would be missing from the group list in the database but present in the model.
- Dashboard.Task: timestamps are integers. Joined profile and group names are left out because no rule reads them.

=== FILE: chat_room.dfy ===
/** The chat-room screen: what it derives from the loaded chatroom and its
    messages, and the gate in front of sending a message. */
module ChatRoom {
  import opened Entities
  import opened Text
  import opened Seqs
  import opened QueryCache

  /** An element of `chatroom_members` joined with its profile. */
  datatype RoomMember = RoomMember(userId: UserId, profile: Option<Profile>)

  /** The `chatroom` query's row; the query yields `null` until loaded or when not found. */
  datatype RoomView = RoomView(name: string, isDirect: bool, members: Option<seq<RoomMember>>)

  /** The joined `sender` profile of a message carries only a name and an email. */
  datatype Sender = Sender(fullName: Option<string>, email: Option<string>)

  datatype Message = Message(id: string, senderId: UserId, content: string, sender: Option<Sender>)

  const UnknownUser := "Unknown User"
  const DirectSubtitle := "Direct message"

  function MembersOf(room: Option<RoomView>): seq<RoomMember> {
    if room.Some? && room.value.members.Some? then room.value.members.value else []
  }

  /** A member other than the viewer; with no session every member counts as other. */
  predicate IsOther(user: Option<UserId>, m: RoomMember) {
    user.None? || m.userId != user.value
  }

  /** The members other than the viewer, in their original order and with their multiplicity. */
  function OtherMembers(room: Option<RoomView>, user: Option<UserId>): (r: seq<RoomMember>)
    ensures IsSubsequence(r, MembersOf(room))
    ensures forall m :: m in r <==> m in MembersOf(room) && IsOther(user, m)
    ensures forall m :: multiset(r)[m] == if IsOther(user, m) then multiset(MembersOf(room))[m] else 0
    ensures user.None? ==> r == MembersOf(room)
  {
    var keep := (m: RoomMember) => IsOther(user, m);
    FilterMultiset(keep, MembersOf(room));
    Filter(keep, MembersOf(room))
  }

  /** The header title: for a direct room the other member's name, else their email,
      else `'Unknown User'` (empty strings fall through); for a group room its name;
      nothing before the room has loaded. */
  function DisplayName(room: Option<RoomView>, user: Option<UserId>): (r: Option<string>)
    ensures room.None? ==> r.None?
    ensures room.Some? && !room.value.isDirect ==> r == Some(room.value.name)
    ensures room.Some? && room.value.isDirect ==> r.Some? && r.value != ""
  {
    if room.None? then None
    else if !room.value.isDirect then Some(room.value.name)
    else
      var others := OtherMembers(room, user);
      var profile := if others == [] then None else others[0].profile;
      var name := if profile.Some? then profile.value.fullName else None;
      var email := if profile.Some? then profile.value.email else None;
      OrElse(OrElse(name, email), Some(UnknownUser))
  }

  /** The direct-room fallback chain, stated on its own terms. */
  lemma DirectDisplayNameChain(room: RoomView, user: Option<UserId>)
    requires room.isDirect
    ensures var others := OtherMembers(Some(room), user);
            var r := DisplayName(Some(room), user).value;
            if others != [] && others[0].profile.Some? && Truthy(others[0].profile.value.fullName) then
              r == others[0].profile.value.fullName.value
            else if others != [] && others[0].profile.Some? && Truthy(others[0].profile.value.email) then
              r == others[0].profile.value.email.value
            else
              r == UnknownUser
  {
  }

  /** The number of loaded members; zero before the room or its members have loaded. */
  function MemberCount(room: Option<RoomView>): nat {
    |MembersOf(room)|
  }

  /** The line under the title. */
  function Subtitle(room: Option<RoomView>): (r: string)
    ensures room.Some? && room.value.isDirect ==> r == DirectSubtitle
    ensures !(room.Some? && room.value.isDirect) ==> r == Decimal(MemberCount(room)) + " members"
  {
    if room.Some? && room.value.isDirect then DirectSubtitle
    else Decimal(MemberCount(room)) + " members"
  }

  /** The subtitle of a group room determines its member count. */
  lemma SubtitleDeterminesCount(a: Option<RoomView>, b: Option<RoomView>)
    requires !(a.Some? && a.value.isDirect) && !(b.Some? && b.value.isDirect)
    requires Subtitle(a) == Subtitle(b)
    ensures MemberCount(a) == MemberCount(b)
  {
    var da := Decimal(MemberCount(a));
    var db := Decimal(MemberCount(b));
    assert |da| == |db|;
    assert da == Subtitle(a)[..|da|];
    assert db == Subtitle(b)[..|db|];
    DecimalInjective(MemberCount(a), MemberCount(b));
  }

  /** A message the signed-in viewer sent; with no session no message is one's own. */
  predicate IsOwnMessage(m: Message, user: Option<UserId>) {
    user.Some? && m.senderId == user.value
  }

  /** The sender line is shown on others' messages in group rooms only
      (a room that has not loaded yet counts as not direct). */
  predicate ShowsSenderLabel(m: Message, user: Option<UserId>, room: Option<RoomView>) {
    !IsOwnMessage(m, user) && !(room.Some? && room.value.isDirect)
  }

  /** The sender line: the sender's full name when non-empty, else their email; nothing
      when the sender's profile was not joined. */
  function SenderLabel(m: Message): (r: Option<string>)
    ensures m.sender.None? ==> r.None?
    ensures m.sender.Some? && Truthy(m.sender.value.fullName) ==> r == m.sender.value.fullName
    ensures m.sender.Some? && !Truthy(m.sender.value.fullName) ==> r == m.sender.value.email
  {
    if m.sender.None? then None else OrElse(m.sender.value.fullName, m.sender.value.email)
  }

  /** In a group room, a message from any member other than the viewer carries a sender
      line, and the viewer's own messages never do; in a direct room no message does. */
  lemma SenderLabelRule(m: Message, user: Option<UserId>, room: Option<RoomView>)
    ensures room.Some? && !room.value.isDirect && (exists o :: o in OtherMembers(room, user) && o.userId == m.senderId) ==>
              ShowsSenderLabel(m, user, room)
    ensures user.Some? && m.senderId == user.value ==> !ShowsSenderLabel(m, user, room)
    ensures room.Some? && room.value.isDirect ==> !ShowsSenderLabel(m, user, room)
  {
  }

  /** `handleSendMessage`: the content handed to the send mutation, if any. */
  function MessageToSend(input: string): (r: Option<string>)
    ensures r.None? <==> IsBlank(input)
    ensures r.Some? ==> r.value == Trim(input) && r.value != ""
    ensures r.Some? ==> !IsWhitespace(r.value[0]) && !IsWhitespace(r.value[|r.value| - 1])
  {
    if Trim(input) == "" then None else Some(Trim(input))
  }

  /** The send button's enablement. */
  predicate SendEnabled(input: string, pending: bool) {
    Trim(input) != "" && !pending
  }

  /** Whatever the button lets through produces a non-empty message, and a blank input
      neither enables the button nor yields content. */
  lemma SendGate(input: string, pending: bool)
    ensures SendEnabled(input, pending) ==> MessageToSend(input).Some?
    ensures IsBlank(input) ==> !SendEnabled(input, pending) && MessageToSend(input).None?
  {
  }

  /** Sending what was sent again sends the same content. */
  lemma SentContentIsStable(input: string)
    requires MessageToSend(input).Some?
    ensures MessageToSend(MessageToSend(input).value) == MessageToSend(input)
  {
    TrimIdempotent(input);
  }

  /** The row inserted into `messages`. */
  datatype MessageRow = MessageRow(chatroomId: RoomId, senderId: UserId, content: string)

  /** The input box and the cache after the send mutation settles. */
  datatype AfterSend = AfterSend(input: string, cache: Cache)

  /** `onSuccess` clears the input and invalidates this room's messages;
      `onError` only reports, leaving both alone. */
  function SettleSend(room: RoomId, input: string, c: Cache, succeeded: bool): (a: AfterSend)
    ensures succeeded ==> a.input == "" && a.cache.Keys == c.Keys
    ensures succeeded ==> forall k :: k in c && MessagesKey(room) <= k ==> a.cache[k] == Stale
    ensures succeeded ==> forall k :: k in c && !(MessagesKey(room) <= k) ==> a.cache[k] == c[k]
    ensures !succeeded ==> a == AfterSend(input, c)
  {
    if succeeded then AfterSend("", Invalidate(c, MessagesKey(room))) else AfterSend(input, c)
  }

  /** A send in one room leaves the cached messages of every other room as they were. */
  lemma SendTouchesOnlyItsRoom(room: RoomId, other: RoomId, input: string, c: Cache)
    requires room != other && MessagesKey(other) in c
    ensures SettleSend(room, input, c, true).cache[MessagesKey(other)] == c[MessagesKey(other)]
  {
    assert MessagesKey(other)[1] != MessagesKey(room)[1];
  }

  /** `handleSendMessage` end to end. A blank input is not sent. Otherwise the insert reads
      the session's id: with no session it throws before any row is written, and the error
      path keeps the input and the cache; with a session the row carries the room, the
      sender and the trimmed content, and the store's verdict settles the mutation. */
  function Send(room: RoomId, user: Option<UserId>, input: string, c: Cache, storeOk: bool): (r: (Option<MessageRow>, AfterSend))
    ensures IsBlank(input) ==> r == (None, AfterSend(input, c))
    ensures !IsBlank(input) && user.None? ==> r == (None, AfterSend(input, c))
    ensures !IsBlank(input) && user.Some? ==> r.0 == Some(MessageRow(room, user.value, Trim(input)))
    ensures !IsBlank(input) && user.Some? ==> r.1 == SettleSend(room, input, c, storeOk)
  {
    match MessageToSend(input)
    case None => (None, AfterSend(input, c))
    case Some(content) =>
      match user
      case None => (None, AfterSend(input, c))
      case Some(me) => (Some(MessageRow(room, me, content)), SettleSend(room, input, c, storeOk))
  }

  /** A message that went through empties the input, so submitting again sends nothing. */
  lemma SendClearsInput(room: RoomId, user: Option<UserId>, input: string, c: Cache, again: bool)
    requires Send(room, user, input, c, true).0.Some?
    ensures var a := Send(room, user, input, c, true).1;
            Send(room, user, a.input, a.cache, again).0 == None
  {
    var a := Send(room, user, input, c, true).1;
    assert a.input == "";
    assert IsBlank(a.input);
  }
}

=== FILE: create_chat.dfy ===
/** The "Start New Chat" dialog: its form state, the participant-selection
    state machine, the validation run before any write, and the rows written
    for a new chatroom. */
module CreateChat {
  import opened Entities
  import opened Text
  import opened Seqs
  import opened QueryCache

  /** `chatName`, `selectedUsers` and `isDirectMessage`. */
  datatype ChatForm = ChatForm(chatName: string, selected: seq<UserId>, isDirect: bool)

  /** The state the dialog opens in and is reset to on close. */
  const InitialForm := ChatForm("", [], true)

  const DirectRoomName := "Direct Message"

  datatype ChatError =
    | DirectNeedsOneUser       // a direct message needs exactly one other user
    | GroupNeedsNameAndUsers   // a group chat needs a non-blank name and at least one other user
    | NoSession                // the creator's id was read while no one was signed in
    | StoreError(message: string)

  /** What the dialog will accept, stated on the characters of the name. */
  predicate WellFormedRequest(f: ChatForm) {
    if f.isDirect then |f.selected| == 1
    else !IsBlank(f.chatName) && |f.selected| > 0
  }

  /** The two checks at the top of `mutationFn`, in order; `None` lets creation proceed. */
  function Validate(f: ChatForm): (r: Option<ChatError>)
    ensures r == None <==> WellFormedRequest(f)
    ensures r != None && f.isDirect ==> r == Some(DirectNeedsOneUser)
    ensures r != None && !f.isDirect ==> r == Some(GroupNeedsNameAndUsers)
  {
    if f.isDirect && |f.selected| != 1 then Some(DirectNeedsOneUser)
    else if !f.isDirect && (Trim(f.chatName) == "" || |f.selected| == 0) then Some(GroupNeedsNameAndUsers)
    else None
  }

  /** A row of `chatrooms` as inserted. */
  datatype ChatroomRow = ChatroomRow(name: string, isDirect: bool, createdBy: UserId)

  /** A row of `chatroom_members`. */
  datatype MemberRow = MemberRow(chatroomId: RoomId, userId: UserId)

  function RoomRow(f: ChatForm, creator: UserId): (r: ChatroomRow)
    ensures r.isDirect == f.isDirect && r.createdBy == creator
    ensures r.name == if f.isDirect then DirectRoomName else f.chatName
  {
    ChatroomRow(if f.isDirect then DirectRoomName else f.chatName, f.isDirect, creator)
  }

  function MemberRowsFor(room: RoomId, users: seq<UserId>): (r: seq<MemberRow>)
    ensures |r| == |users|
    ensures forall i :: 0 <= i < |r| ==> r[i] == MemberRow(room, users[i])
  {
    if users == [] then [] else [MemberRow(room, users[0])] + MemberRowsFor(room, users[1..])
  }

  /** The membership rows: the creator first, then the selection in order. */
  function MemberRows(room: RoomId, creator: UserId, selected: seq<UserId>): (r: seq<MemberRow>)
    ensures |r| == 1 + |selected|
    ensures r[0] == MemberRow(room, creator)
    ensures forall i :: 0 <= i < |selected| ==> r[i + 1] == MemberRow(room, selected[i])
  {
    MemberRowsFor(room, [creator] + selected)
  }

  function UserIds(rows: seq<MemberRow>): (r: seq<UserId>)
    ensures |r| == |rows|
    ensures forall i :: 0 <= i < |rows| ==> r[i] == rows[i].userId
  {
    if rows == [] then [] else [rows[0].userId] + UserIds(rows[1..])
  }

  /** Projecting the membership rows back to user ids recovers creator and selection. */
  lemma MemberRowsRecoverUsers(room: RoomId, creator: UserId, selected: seq<UserId>)
    ensures UserIds(MemberRows(room, creator, selected)) == [creator] + selected
    ensures forall m :: m in MemberRows(room, creator, selected) ==> m.chatroomId == room
  {
  }

  /** A store write issued by the dialog. */
  datatype Write = InsertChatroom(room: ChatroomRow) | InsertMembers(rows: seq<MemberRow>)

  /** The store's answers: the chatroom insert returns the new id or an error; the
      members insert returns an error or nothing. */
  datatype StoreReplies = StoreReplies(roomInsert: Result<RoomId, string>, membersInsert: Option<string>)

  datatype Creation = Creation(outcome: Result<RoomId, ChatError>, writes: seq<Write>)

  /** `mutationFn`: validate, insert the chatroom, insert its members. */
  function Create(f: ChatForm, user: Option<UserId>, replies: StoreReplies): (c: Creation)
    ensures Validate(f).Some? ==> c == Creation(Failure(Validate(f).value), [])
    ensures WellFormedRequest(f) && user.None? ==> c == Creation(Failure(NoSession), [])
    ensures c.outcome.Success? <==>
              WellFormedRequest(f) && user.Some? && replies.roomInsert.Success? && replies.membersInsert.None?
    ensures c.outcome.Success? ==>
              && c.outcome.value == replies.roomInsert.value
              && c.writes == [InsertChatroom(RoomRow(f, user.value)),
                              InsertMembers(MemberRows(c.outcome.value, user.value, f.selected))]
    ensures WellFormedRequest(f) && user.Some? && replies.roomInsert.Failure? ==>
              c == Creation(Failure(StoreError(replies.roomInsert.error)), [InsertChatroom(RoomRow(f, user.value))])
  {
    match Validate(f)
    case Some(e) => Creation(Failure(e), [])
    case None =>
      match user
      case None => Creation(Failure(NoSession), [])
      case Some(me) =>
        var room := RoomRow(f, me);
        match replies.roomInsert
        case Failure(msg) => Creation(Failure(StoreError(msg)), [InsertChatroom(room)])
        case Success(id) =>
          var writes := [InsertChatroom(room), InsertMembers(MemberRows(id, me, f.selected))];
          match replies.membersInsert
          case Some(msg) => Creation(Failure(StoreError(msg)), writes)
          case None => Creation(Success(id), writes)
  }

  /** A request the dialog rejects writes nothing to the store. */
  lemma RejectedRequestWritesNothing(f: ChatForm, user: Option<UserId>, replies: StoreReplies)
    requires !WellFormedRequest(f)
    ensures Create(f, user, replies).writes == []
    ensures Create(f, user, replies).outcome == Failure(if f.isDirect then DirectNeedsOneUser else GroupNeedsNameAndUsers)
  {
  }

  /** The two inserts are separate calls: when the members insert fails, the chatroom row
      has already been written and the creation still reports failure. */
  lemma MembersFailureLeavesRoom(f: ChatForm, me: UserId, id: RoomId, msg: string)
    requires WellFormedRequest(f)
    ensures var c := Create(f, Some(me), StoreReplies(Success(id), Some(msg)));
            c.outcome == Failure(StoreError(msg)) && InsertChatroom(RoomRow(f, me)) in c.writes
  {
  }

  /** `handleUserToggle`: replace in direct mode, toggle membership in group mode. */
  function Toggle(f: ChatForm, u: UserId): (f': ChatForm)
    ensures f'.chatName == f.chatName && f'.isDirect == f.isDirect
    ensures f.isDirect ==> f'.selected == [u]
    ensures !f.isDirect ==> (u in f'.selected <==> u !in f.selected)
    ensures !f.isDirect ==> forall v :: v != u ==> (v in f'.selected <==> v in f.selected)
    ensures !f.isDirect && u !in f.selected ==> f'.selected == f.selected + [u]
    ensures !f.isDirect && u in f.selected ==>
              IsSubsequence(f'.selected, f.selected) && multiset(f'.selected) == multiset(f.selected)[u := 0]
  {
    if f.isDirect then f.(selected := [u])
    else if u in f.selected then
      RemoveMultiset(f.selected, u);
      f.(selected := Remove(f.selected, u))
    else f.(selected := f.selected + [u])
  }

  /** Toggling never introduces a duplicate into the selection. */
  lemma ToggleKeepsDistinct(f: ChatForm, u: UserId)
    requires Distinct(f.selected)
    ensures Distinct(Toggle(f, u).selected)
  {
    if !f.isDirect && u in f.selected {
      SubsequenceKeepsDistinct(Remove(f.selected, u), f.selected);
    }
  }

  /** In group mode, selecting a user and deselecting them again restores the selection. */
  lemma ToggleTwiceRestoresAbsent(f: ChatForm, u: UserId)
    requires !f.isDirect && u !in f.selected
    ensures Toggle(Toggle(f, u), u) == f
  {
    RemoveAppend(f.selected, [u], u);
    assert Remove([u], u) == [];
  }

  /** Deselecting a user and selecting them again restores the same set of users,
      with that user moved to the end. */
  lemma ToggleTwiceRestoresPresent(f: ChatForm, u: UserId)
    requires !f.isDirect && u in f.selected && Distinct(f.selected)
    ensures var g := Toggle(Toggle(f, u), u);
            g.chatName == f.chatName && g.isDirect == f.isDirect
            && multiset(g.selected) == multiset(f.selected)
            && g.selected[|g.selected| - 1] == u
  {
    var w := Remove(f.selected, u);
    assert Toggle(f, u) == f.(selected := w);
    RemoveThenAppend(f.selected, u);
  }

  lemma RemoveThenAppend(s: seq<UserId>, u: UserId)
    requires Distinct(s) && u in s
    ensures multiset(Remove(s, u) + [u]) == multiset(s)
  {
    RemoveMultiset(s, u);
    DistinctOccursOnce(s, u);
  }

  /** The direct-message checkbox: any change empties the selection. */
  function SetDirect(f: ChatForm, checked: bool): (f': ChatForm)
    ensures f'.selected == [] && f'.isDirect == checked && f'.chatName == f.chatName
  {
    ChatForm(f.chatName, [], checked)
  }

  /** Closing the dialog puts every field back to its initial value. */
  function Close(f: ChatForm): (f': ChatForm)
    ensures f'.chatName == "" && f'.selected == [] && f'.isDirect
  {
    InitialForm
  }

  /** The submit button's enablement. */
  predicate SubmitEnabled(f: ChatForm, pending: bool) {
    !pending && |f.selected| > 0
  }

  /** A disabled submit button is disabled because nothing is selected or a creation is running. */
  lemma SubmitDisabledWhen(f: ChatForm, pending: bool)
    ensures !SubmitEnabled(f, pending) <==> pending || f.selected == []
  {
  }

  /** User input the dialog reacts to. */
  datatype Event = ToggleUser(u: UserId) | CheckDirect(checked: bool) | TypeName(name: string) | Dismiss

  function Step(f: ChatForm, e: Event): ChatForm {
    match e
    case ToggleUser(u) => Toggle(f, u)
    case CheckDirect(b) => SetDirect(f, b)
    case TypeName(n) => f.(chatName := n)
    case Dismiss => Close(f)
  }

  function Run(f: ChatForm, es: seq<Event>): ChatForm
    decreases |es|
  {
    if es == [] then f else Run(Step(f, es[0]), es[1..])
  }

  /** What holds of every form the dialog can reach. */
  predicate Reachable(f: ChatForm) {
    Distinct(f.selected) && (f.isDirect ==> |f.selected| <= 1)
  }

  lemma StepKeepsReachable(f: ChatForm, e: Event)
    requires Reachable(f)
    ensures Reachable(Step(f, e))
  {
    if e.ToggleUser? {
      ToggleKeepsDistinct(f, e.u);
    }
  }

  /** Every sequence of interactions from the opening state keeps the selection
      duplicate-free and, in direct mode, of at most one user. */
  lemma {:induction false} RunKeepsReachable(f: ChatForm, es: seq<Event>)
    requires Reachable(f)
    ensures Reachable(Run(f, es))
    decreases |es|
  {
    if es != [] {
      StepKeepsReachable(f, es[0]);
      RunKeepsReachable(Step(f, es[0]), es[1..]);
    }
  }

  /** In direct mode an enabled submit button always passes validation; in group mode it
      can still fail for a blank name. */
  lemma DirectSubmitPassesValidation(es: seq<Event>)
    ensures var f := Run(InitialForm, es);
            f.isDirect && SubmitEnabled(f, false) ==> Validate(f) == None
  {
    RunKeepsReachable(InitialForm, es);
  }

  /** The dialog after a submission: on success it closes and the chat list is marked
      stale; on failure the form and the cache stay as they were. */
  datatype Submitted = Submitted(form: ChatForm, cache: Cache, creation: Creation)

  /** Creating a chat leaves both task lists and every room's messages as cached. */
  lemma SubmitLeavesTasksAlone(f: ChatForm, user: Option<UserId>, replies: StoreReplies, c: Cache, room: RoomId, u: Option<UserId>)
    ensures var c' := Submit(f, user, replies, c).cache;
            && c'.Keys == c.Keys
            && (MyTasksQuery(u) in c ==> c'[MyTasksQuery(u)] == c[MyTasksQuery(u)])
            && (GroupTasksQuery(u) in c ==> c'[GroupTasksQuery(u)] == c[GroupTasksQuery(u)])
            && (MessagesKey(room) in c ==> c'[MessagesKey(room)] == c[MessagesKey(room)])
  {
    assert MyTasksQuery(u)[0] != UserChatroomsKey[0];
    assert GroupTasksQuery(u)[0] != UserChatroomsKey[0];
    assert MessagesKey(room)[0] != UserChatroomsKey[0];
  }

  function Submit(f: ChatForm, user: Option<UserId>, replies: StoreReplies, c: Cache): (s: Submitted)
    ensures s.creation == Create(f, user, replies)
    ensures s.creation.outcome.Success? ==> s.form == InitialForm && s.cache == Invalidate(c, UserChatroomsKey)
    ensures s.creation.outcome.Failure? ==> s.form == f && s.cache == c
  {
    var creation := Create(f, user, replies);
    if creation.outcome.Success? then Submitted(Close(f), Invalidate(c, UserChatroomsKey), creation)
    else Submitted(f, c, creation)
  }
}

=== FILE: dashboard.dfy ===
/** The dashboard's two task lists. Each query (filter, order by due date
    ascending with undated tasks last, limit 3) is restated as a pure function
    over an in-memory task table. */
module Dashboard {
  import opened Entities
  import opened Seqs

  /** The columns of a `tasks` row the queries read; due dates are timestamps. */
  datatype Task = Task(id: string, assignedTo: UserId, status: TaskStatus, groupId: Option<string>, dueDate: Option<int>)

  /** Each dashboard list shows at most this many tasks. */
  const Limit := 3

  /** May `a` come before `b` in ascending due-date order with undated tasks last? */
  predicate DueNoLater(a: Task, b: Task) {
    match (a.dueDate, b.dueDate)
    case (Some(x), Some(y)) => x <= y
    case (Some(_), None) => true
    case (None, Some(_)) => false
    case (None, None) => true
  }

  /** `a` is strictly earlier: dated before `b`, or dated while `b` is not. */
  predicate DueEarlier(a: Task, b: Task) {
    !DueNoLater(b, a)
  }

  lemma DueNoLaterTotal(a: Task, b: Task)
    ensures DueNoLater(a, b) || DueNoLater(b, a)
  {
  }

  lemma DueNoLaterTransitive(a: Task, b: Task, c: Task)
    requires DueNoLater(a, b) && DueNoLater(b, c)
    ensures DueNoLater(a, c)
  {
  }

  predicate SortedByDue(s: seq<Task>) {
    forall i, j :: 0 <= i < j < |s| ==> DueNoLater(s[i], s[j])
  }

  lemma SortedCons(x: Task, s: seq<Task>)
    requires SortedByDue(s)
    requires forall y :: y in s ==> DueNoLater(x, y)
    ensures SortedByDue([x] + s)
  {
    forall i, j | 0 <= i < j < |[x] + s| ensures DueNoLater(([x] + s)[i], ([x] + s)[j]) {
      assert ([x] + s)[j] == s[j - 1];
      if i > 0 {
        assert ([x] + s)[i] == s[i - 1];
      }
    }
  }

  /** Places `t` before the first task it is not later than. */
  function Insert(t: Task, s: seq<Task>): (r: seq<Task>)
    requires SortedByDue(s)
    ensures SortedByDue(r)
    ensures forall x :: x in r ==> x == t || x in s
    ensures multiset(r) == multiset(s) + multiset{t}
  {
    if s == [] then [t]
    else if DueNoLater(t, s[0]) then
      SortedCons(t, s);
      [t] + s
    else
      var rest := Insert(t, s[1..]);
      assert s == [s[0]] + s[1..];
      SortedCons(s[0], rest);
      [s[0]] + rest
  }

  /** Insertion sort; the database leaves the order of equal due dates open, this takes one. */
  function SortByDue(s: seq<Task>): (r: seq<Task>)
    ensures SortedByDue(r)
    ensures multiset(r) == multiset(s)
  {
    if s == [] then []
    else
      assert s == [s[0]] + s[1..];
      Insert(s[0], SortByDue(s[1..]))
  }

  function Min(a: int, b: int): int {
    if a < b then a else b
  }

  /** Filter, order and limit: the first `Limit` qualifying tasks by due date. It is sorted,
      drawn from the qualifying tasks, as long as the limit allows, and never skips an
      earlier qualifying task for a later one. */
  function Top(tasks: seq<Task>, qualifies: Task -> bool): (r: seq<Task>)
    ensures SortedByDue(r)
    ensures |r| == Min(Limit, |Filter(qualifies, tasks)|)
    ensures multiset(r) <= multiset(Filter(qualifies, tasks))
    ensures forall t :: t in r ==> t in tasks && qualifies(t)
    ensures forall t, u :: t in tasks && qualifies(t) && u in r && DueEarlier(t, u) ==> t in r
    ensures |r| < Limit ==> forall t :: t in tasks && qualifies(t) ==> t in r
  {
    var sorted := SortByDue(Filter(qualifies, tasks));
    TopFacts(tasks, qualifies, sorted);
    sorted[..Min(Limit, |sorted|)]
  }

  /** Whichever way ties between equal due dates are broken, any due-date order of the
      qualifying tasks gives a limited list with all of `Top`'s properties. */
  lemma TopFacts(tasks: seq<Task>, qualifies: Task -> bool, sorted: seq<Task>)
    requires SortedByDue(sorted) && multiset(sorted) == multiset(Filter(qualifies, tasks))
    ensures var r := sorted[..Min(Limit, |sorted|)];
            && SortedByDue(r)
            && |r| == Min(Limit, |Filter(qualifies, tasks)|)
            && multiset(r) <= multiset(Filter(qualifies, tasks))
            && (forall t :: t in r ==> t in tasks && qualifies(t))
            && (forall t, u :: t in tasks && qualifies(t) && u in r && DueEarlier(t, u) ==> t in r)
            && (|r| < Limit ==> forall t :: t in tasks && qualifies(t) ==> t in r)
  {
    var q := Filter(qualifies, tasks);
    var k := Min(Limit, |sorted|);
    PrefixDrawnFrom(q, sorted, k);
    SortedPrefixClosed(sorted, k);
    SameElements(q, sorted);
  }

  /** A prefix of a permutation of `q` is drawn from `q`, and the whole is as long as `q`. */
  lemma PrefixDrawnFrom(q: seq<Task>, sorted: seq<Task>, k: nat)
    requires multiset(sorted) == multiset(q) && k <= |sorted|
    ensures |sorted| == |q|
    ensures multiset(sorted[..k]) <= multiset(q)
    ensures forall t :: t in sorted[..k] ==> t in q
  {
    assert |multiset(sorted)| == |multiset(q)|;
    assert sorted == sorted[..k] + sorted[k..];
    assert multiset(sorted) == multiset(sorted[..k]) + multiset(sorted[k..]);
    forall t | t in sorted[..k] ensures t in q {
      assert t in multiset(q);
    }
  }

  /** A permutation has the same members. */
  lemma SameElements(q: seq<Task>, sorted: seq<Task>)
    requires multiset(sorted) == multiset(q)
    ensures forall t :: t in q ==> t in sorted
  {
    forall t | t in q ensures t in sorted {
      assert t in multiset(sorted);
    }
  }

  /** A prefix of a sorted list holds everything strictly earlier than any of its members. */
  lemma SortedPrefixClosed(sorted: seq<Task>, k: nat)
    requires SortedByDue(sorted) && k <= |sorted|
    ensures SortedByDue(sorted[..k])
    ensures forall t, u :: t in sorted && u in sorted[..k] && DueEarlier(t, u) ==> t in sorted[..k]
  {
    forall t, u | t in sorted && u in sorted[..k] && DueEarlier(t, u) ensures t in sorted[..k] {
      var j :| 0 <= j < |sorted| && sorted[j] == t;
      var i :| 0 <= i < k && sorted[..k][i] == u;
      assert j < k;
      assert sorted[..k][j] == t;
    }
  }

  /** A pending task assigned to the viewer. */
  predicate IsMyTask(me: UserId, t: Task) {
    t.assignedTo == me && t.status == Pending
  }

  /** A pending task of some group, assigned to someone other than the viewer. */
  predicate IsGroupTask(me: UserId, t: Task) {
    t.assignedTo != me && t.status == Pending && t.groupId.Some?
  }

  /** The `my-tasks` query over the store's `tasks` table, `None` when the select fails:
      nothing without a session or when the select fails; otherwise pending tasks assigned
      to the viewer, each row at most as often as the table holds it, min(3, qualifying)
      of them, earliest due first, none earlier left out. */
  function MyTasks(table: Option<seq<Task>>, user: Option<UserId>): (r: seq<Task>)
    ensures !SignedIn(user) || table.None? ==> r == []
    ensures |r| <= Limit && SortedByDue(r)
    ensures forall t :: t in r ==> table.Some? && t in table.value && t.status == Pending && t.assignedTo == user.value
    ensures SignedIn(user) && table.Some? ==>
              var q := Filter((t: Task) => IsMyTask(user.value, t), table.value);
              && multiset(r) <= multiset(q)
              && |r| == Min(Limit, |q|)
              && (forall t, u :: t in q && u in r && DueEarlier(t, u) ==> t in r)
  {
    if !SignedIn(user) || table.None? then [] else Top(table.value, (t: Task) => IsMyTask(user.value, t))
  }

  /** The `group-tasks` query over the store's `tasks` table, `None` when the select fails:
      nothing without a session or when the select fails; otherwise pending group tasks
      assigned to someone else, each row at most as often as the table holds it,
      min(3, qualifying) of them, earliest due first, none earlier left out. */
  function GroupTasks(table: Option<seq<Task>>, user: Option<UserId>): (r: seq<Task>)
    ensures !SignedIn(user) || table.None? ==> r == []
    ensures |r| <= Limit && SortedByDue(r)
    ensures forall t :: t in r ==>
              table.Some? && t in table.value && t.status == Pending && t.assignedTo != user.value && t.groupId.Some?
    ensures SignedIn(user) && table.Some? ==>
              var q := Filter((t: Task) => IsGroupTask(user.value, t), table.value);
              && multiset(r) <= multiset(q)
              && |r| == Min(Limit, |q|)
              && (forall t, u :: t in q && u in r && DueEarlier(t, u) ==> t in r)
  {
    if !SignedIn(user) || table.None? then [] else Top(table.value, (t: Task) => IsGroupTask(user.value, t))
  }

  /** When fewer than three of the viewer's tasks are pending, the list shows all of them. */
  lemma MyTasksAllWhenFew(table: seq<Task>, user: Option<UserId>)
    requires SignedIn(user)
    requires |Filter((t: Task) => IsMyTask(user.value, t), table)| < Limit
    ensures forall t :: t in table && IsMyTask(user.value, t) ==> t in MyTasks(Some(table), user)
  {
  }

  /** No task appears in both lists. */
  lemma ListsDisjoint(table: Option<seq<Task>>, user: Option<UserId>, t: Task)
    ensures !(t in MyTasks(table, user) && t in GroupTasks(table, user))
  {
  }
}

=== FILE: entities.dfy ===
/** Shared shapes of the front-end: nullable values, identifiers, profiles and
    the enumerations stored on tasks. */
module Entities {

  /** A JavaScript value that may be `null` or `undefined`. */
  datatype Option<+T> = None | Some(value: T)

  /** Either a value or the error a call threw. */
  datatype Result<+T, +E> = Success(value: T) | Failure(error: E)

  /** Profile, chatroom and message identifiers are opaque strings (UUIDs in the store). */
  type UserId = string
  type RoomId = string

  /** A row of `profiles` as the joined selects return it. */
  datatype Profile = Profile(id: UserId, fullName: Option<string>, email: Option<string>)

  datatype Priority = Normal | High
  datatype RepeatType = NoRepeat | Daily | Weekly | Monthly
  datatype TaskStatus = Pending | Completed

  /** JavaScript truthiness of a nullable string: present and non-empty. */
  predicate Truthy(a: Option<string>) {
    a.Some? && a.value != ""
  }

  /** JavaScript `a || b` on nullable strings. */
  function OrElse(a: Option<string>, b: Option<string>): (r: Option<string>)
    ensures Truthy(a) ==> r == a
    ensures !Truthy(a) ==> r == b
  {
    if Truthy(a) then a else b
  }

  /** A session is present and carries a non-empty id. */
  predicate SignedIn(user: Option<UserId>) {
    user.Some? && user.value != ""
  }
}

=== FILE: query_cache.dfy ===
/** The slice of the react-query client the components use: query keys and
    `invalidateQueries`, which marks every cached query whose key starts with
    the given key as stale. Refetching is left to the caller. */
module QueryCache {
  import opened Entities

  /** One element of a query key: a string, or `undefined` (the part a key holds for a missing session id). */
  datatype KeyPart = Str(s: string) | Undefined
  type QueryKey = seq<KeyPart>

  datatype Freshness = Fresh | Stale

  /** The cached queries, each with its staleness. */
  type Cache = map<QueryKey, Freshness>

  /** A key given to `invalidateQueries` matches every key it is a prefix of. */
  predicate Matches(filter: QueryKey, key: QueryKey) {
    filter <= key
  }

  function StaleKeys(c: Cache): set<QueryKey> {
    set k | k in c && c[k] == Stale
  }

  /** Invalidation: every cached query under the key `filter` becomes stale. */
  function Invalidate(c: Cache, filter: QueryKey): (c': Cache)
    ensures c'.Keys == c.Keys
    ensures StaleKeys(c') == StaleKeys(c) + (set k | k in c && Matches(filter, k))
    ensures forall k :: k in c && !Matches(filter, k) ==> c'[k] == c[k]
  {
    map k | k in c :: if Matches(filter, k) then Stale else c[k]
  }

  /** Invalidating the same key twice has the effect of invalidating it once. */
  lemma InvalidateIdempotent(c: Cache, filter: QueryKey)
    ensures Invalidate(Invalidate(c, filter), filter) == Invalidate(c, filter)
  {
  }

  /** The order of two invalidations does not matter. */
  lemma InvalidateCommutes(c: Cache, f1: QueryKey, f2: QueryKey)
    ensures Invalidate(Invalidate(c, f1), f2) == Invalidate(Invalidate(c, f2), f1)
  {
  }

  function IdPart(id: Option<string>): KeyPart {
    match id
    case Some(s) => Str(s)
    case None => Undefined
  }

  /** The key of the viewer's chat list. */
  const UserChatroomsKey: QueryKey := [Str("user-chatrooms")]
  /** The prefixes of every user's task lists, which creating a task invalidates. */
  const MyTasksKey: QueryKey := [Str("my-tasks")]
  const GroupTasksKey: QueryKey := [Str("group-tasks")]

  /** The key of one chat room's messages. */
  function MessagesKey(room: RoomId): QueryKey {
    [Str("messages"), Str(room)]
  }

  /** The dashboard's keys for one viewer's task lists; an absent session gives `undefined`. */
  function MyTasksQuery(user: Option<UserId>): QueryKey {
    MyTasksKey + [IdPart(user)]
  }

  function GroupTasksQuery(user: Option<UserId>): QueryKey {
    GroupTasksKey + [IdPart(user)]
  }
}

=== FILE: seqs.dfy ===
/** Order-preserving filtering, as `Array.prototype.filter` does it. */
module Seqs {
  import opened Entities

  /** `a` is obtained from `b` by deleting elements, keeping the order of the rest. */
  predicate IsSubsequence<T(==)>(a: seq<T>, b: seq<T>)
    decreases |b|
  {
    if a == [] then true
    else if b == [] then false
    else if a[0] == b[0] then IsSubsequence(a[1..], b[1..])
    else IsSubsequence(a, b[1..])
  }

  function Filter<T(==,!new)>(keep: T -> bool, s: seq<T>): (r: seq<T>)
    ensures forall x :: x in r <==> x in s && keep(x)
    ensures forall i :: 0 <= i < |r| ==> keep(r[i])
    ensures multiset(r) <= multiset(s)
    ensures IsSubsequence(r, s)
    ensures (forall i :: 0 <= i < |s| ==> keep(s[i])) ==> r == s
  {
    if s == [] then []
    else
      var rest := Filter(keep, s[1..]);
      assert s == [s[0]] + s[1..];
      if keep(s[0]) then
        assert ([s[0]] + rest)[1..] == rest;
        [s[0]] + rest
      else
        IsSubsequenceDropHead(rest, s);
        rest
  }

  /** Filtering keeps every passing occurrence: each passing value appears exactly as often
      as in the input, and a failing value not at all. */
  lemma {:induction false} FilterMultiset<T(!new)>(keep: T -> bool, s: seq<T>)
    ensures forall x :: multiset(Filter(keep, s))[x] == if keep(x) then multiset(s)[x] else 0
  {
    if s != [] {
      assert s == [s[0]] + s[1..];
      FilterMultiset(keep, s[1..]);
    }
  }

  /** Dropping the head of `b` keeps a subsequence whose first element differs from it. */
  lemma IsSubsequenceDropHead<T>(a: seq<T>, b: seq<T>)
    requires b != [] && IsSubsequence(a, b[1..])
    ensures IsSubsequence(a, b)
    decreases |b|, 0
  {
    if a != [] && a[0] == b[0] {
      IsSubsequenceTail(a, b[1..]);
    }
  }

  lemma IsSubsequenceTail<T>(a: seq<T>, b: seq<T>)
    requires a != [] && IsSubsequence(a, b)
    ensures IsSubsequence(a[1..], b)
    decreases |b|, 1
  {
    if b != [] && a[0] != b[0] {
      IsSubsequenceTail(a, b[1..]);
    } else if b != [] {
      IsSubsequenceDropHead(a[1..], b);
    }
  }

  predicate Distinct<T(==)>(s: seq<T>) {
    forall i, j :: 0 <= i < j < |s| ==> s[i] != s[j]
  }

  lemma {:induction false} SubsequenceElements<T>(a: seq<T>, b: seq<T>)
    requires IsSubsequence(a, b)
    ensures forall x :: x in a ==> x in b
    decreases |b|
  {
    if a != [] && b != [] {
      if a[0] == b[0] {
        SubsequenceElements(a[1..], b[1..]);
        assert forall x :: x in a ==> x == a[0] || x in a[1..];
      } else {
        SubsequenceElements(a, b[1..]);
      }
    }
  }

  /** Deleting elements cannot create a repetition. */
  lemma {:induction false} SubsequenceKeepsDistinct<T>(a: seq<T>, b: seq<T>)
    requires IsSubsequence(a, b) && Distinct(b)
    ensures Distinct(a)
    decreases |b|
  {
    if a != [] && b != [] {
      if a[0] == b[0] {
        SubsequenceKeepsDistinct(a[1..], b[1..]);
        SubsequenceElements(a[1..], b[1..]);
        forall j | 0 < j < |a| ensures a[0] != a[j] {
          assert a[j] in a[1..];
        }
      } else {
        SubsequenceKeepsDistinct(a, b[1..]);
      }
    }
  }

  /** Every element of `s` except the occurrences of `u`, in their original order. */
  function Remove<T(==,!new)>(s: seq<T>, u: T): (r: seq<T>)
    ensures forall v :: v in r <==> v in s && v != u
    ensures IsSubsequence(r, s)
    ensures u !in s ==> r == s
  {
    if s == [] then []
    else
      var rest := Remove(s[1..], u);
      assert s == [s[0]] + s[1..];
      if s[0] != u then
        assert ([s[0]] + rest)[1..] == rest;
        [s[0]] + rest
      else
        IsSubsequenceDropHead(rest, s);
        rest
  }

  lemma RemoveCons<T(!new)>(x: T, s: seq<T>, u: T)
    ensures Remove([x] + s, u) == (if x != u then [x] else []) + Remove(s, u)
  {
    assert ([x] + s)[1..] == s;
  }

  /** Removal distributes over concatenation. */
  lemma {:induction false} RemoveAppend<T(!new)>(a: seq<T>, b: seq<T>, u: T)
    ensures Remove(a + b, u) == Remove(a, u) + Remove(b, u)
  {
    if a == [] {
      assert a + b == b;
    } else {
      var h := if a[0] != u then [a[0]] else [];
      assert a + b == [a[0]] + (a[1..] + b);
      assert a == [a[0]] + a[1..];
      calc {
        Remove(a + b, u);
      == { RemoveCons(a[0], a[1..] + b, u); }
        h + Remove(a[1..] + b, u);
      == { RemoveAppend(a[1..], b, u); }
        h + (Remove(a[1..], u) + Remove(b, u));
      == { RemoveCons(a[0], a[1..], u); }
        Remove(a, u) + Remove(b, u);
      }
    }
  }

  /** Removing a value deletes exactly its occurrences. */
  lemma {:induction false} RemoveMultiset<T(!new)>(s: seq<T>, u: T)
    ensures multiset(Remove(s, u)) == multiset(s)[u := 0]
  {
    if s != [] {
      assert s == [s[0]] + s[1..];
      RemoveMultiset(s[1..], u);
    }
  }

  /** A value occurs once in a sequence without repetitions that contains it. */
  lemma {:induction false} DistinctOccursOnce<T>(s: seq<T>, u: T)
    requires Distinct(s) && u in s
    ensures multiset(s)[u] == 1
  {
    assert s == [s[0]] + s[1..];
    if s[0] == u {
      assert u !in s[1..] by {
        forall j | 0 <= j < |s[1..]| ensures s[1..][j] != u { assert s[j + 1] == s[1..][j]; }
      }
    } else {
      DistinctOccursOnce(s[1..], u);
    }
  }

  /** Every value of `r`, wrapped as present. */
  function Lift<T>(r: seq<T>): (l: seq<Option<T>>)
    ensures |l| == |r|
    ensures forall i :: 0 <= i < |r| ==> l[i] == Some(r[i])
  {
    seq(|r|, i requires 0 <= i < |r| => Some(r[i]))
  }

  /** Dropping the nulls from a list of nullable objects: the present values in their original order,
      each as often as it occurs, with every null dropped. */
  function Somes<T(==,!new)>(s: seq<Option<T>>): (r: seq<T>)
    ensures |r| <= |s|
    ensures forall x :: x in r <==> Some(x) in s
    ensures IsSubsequence(Lift(r), s)
    ensures multiset(Lift(r)) == multiset(s)[None := 0]
  {
    if s == [] then []
    else
      var rest := Somes(s[1..]);
      SomesStep(s, rest);
      if s[0].Some? then [s[0].value] + rest else rest
  }

  /** One step of `Somes`: what the head adds to the tail's result. */
  lemma SomesStep<T>(s: seq<Option<T>>, rest: seq<T>)
    requires s != []
    requires forall x :: x in rest <==> Some(x) in s[1..]
    requires IsSubsequence(Lift(rest), s[1..])
    requires multiset(Lift(rest)) == multiset(s[1..])[None := 0]
    ensures var r := if s[0].Some? then [s[0].value] + rest else rest;
            && (forall x :: x in r <==> Some(x) in s)
            && IsSubsequence(Lift(r), s)
            && multiset(Lift(r)) == multiset(s)[None := 0]
  {
    assert s == [s[0]] + s[1..];
    if s[0].Some? {
      SomesStepPresent(s, rest);
    } else {
      IsSubsequenceDropHead(Lift(rest), s);
      assert multiset(s) == multiset{s[0]} + multiset(s[1..]);
    }
  }

  lemma SomesStepPresent<T>(s: seq<Option<T>>, rest: seq<T>)
    requires s != [] && s[0].Some?
    requires IsSubsequence(Lift(rest), s[1..])
    requires multiset(Lift(rest)) == multiset(s[1..])[None := 0]
    ensures IsSubsequence(Lift([s[0].value] + rest), s)
    ensures multiset(Lift([s[0].value] + rest)) == multiset(s)[None := 0]
  {
    var l := Lift([s[0].value] + rest);
    assert l == [s[0]] + Lift(rest);
    assert l[1..] == Lift(rest);
    assert s == [s[0]] + s[1..];
    calc {
      multiset(l);
      multiset{s[0]} + multiset(Lift(rest));
      multiset{s[0]} + multiset(s[1..])[None := 0];
      (multiset{s[0]} + multiset(s[1..]))[None := 0];
      multiset(s)[None := 0];
    }
  }

  /** A list with no nulls passes through unchanged. */
  lemma {:induction false} SomesOfLift<T(!new)>(r: seq<T>)
    ensures Somes(Lift(r)) == r
  {
    if r != [] {
      assert Lift(r)[1..] == Lift(r[1..]);
      SomesOfLift(r[1..]);
    }
  }
}

=== FILE: task_form.dfy ===
/** The "Create New Task" dialog: the row it inserts, its reset, and the
    assignee choices it offers from the viewer's groups. */
module TaskForm {
  import opened Entities
  import opened Seqs
  import opened QueryCache

  /** The dialog's inputs: title, assignee choice, due-date text, priority and repeat. */
  datatype Form = Form(title: string, assignedTo: string, dueDate: string, priority: Priority, repeat: RepeatType)

  /** The assignee selector's value that stands for the viewer. */
  const Me := "me"

  const DefaultForm := Form("", Me, "", Normal, NoRepeat)

  /** The row inserted into `tasks`; `dueDate` holds the ISO timestamp text. */
  datatype TaskRow = TaskRow(
    title: string,
    assignedTo: UserId,
    createdBy: UserId,
    dueDate: Option<string>,
    priority: Priority,
    repeat: RepeatType,
    status: TaskStatus)

  datatype SubmitError =
    | NotSignedIn   // no session: the handler returns before inserting anything
    | InvalidDate   // the due-date text does not parse, so converting it to ISO form throws

  /** The row the submit handler inserts. `toIso` stands for the date-to-ISO conversion and
      yields `None` where that conversion throws. */
  function BuildTask(f: Form, user: Option<UserId>, toIso: string -> Option<string>): (r: Result<TaskRow, SubmitError>)
    ensures !SignedIn(user) ==> r == Failure(NotSignedIn)
    ensures r.Success? ==> SignedIn(user)
    ensures r.Success? ==>
              && r.value.title == f.title
              && r.value.createdBy == user.value
              && r.value.assignedTo == (if f.assignedTo == Me then user.value else f.assignedTo)
              && r.value.status == Pending
              && r.value.priority == f.priority
              && r.value.repeat == f.repeat
              && (r.value.dueDate.None? <==> f.dueDate == "")
              && (f.dueDate != "" ==> r.value.dueDate == toIso(f.dueDate))
    ensures SignedIn(user) && r.Failure? ==> r.error == InvalidDate && f.dueDate != "" && toIso(f.dueDate).None?
  {
    if !SignedIn(user) then Failure(NotSignedIn)
    else
      var me := user.value;
      var due := if f.dueDate == "" then Success(None)
                 else if toIso(f.dueDate).Some? then Success(toIso(f.dueDate))
                 else Failure(InvalidDate);
      match due
      case Failure(e) => Failure(e)
      case Success(d) =>
        Success(TaskRow(f.title, if f.assignedTo == Me then me else f.assignedTo, me, d, f.priority, f.repeat, Pending))
  }

  /** With a date converter that never fails, a signed-in viewer always gets a row. */
  lemma SignedInAlwaysBuilds(f: Form, user: Option<UserId>, toIso: string -> Option<string>)
    requires SignedIn(user)
    requires forall s :: toIso(s).Some?
    ensures BuildTask(f, user, toIso).Success?
  {
  }

  /** Closing the dialog puts every input back to its default. */
  function Reset(f: Form): (r: Form)
    ensures r.title == "" && r.assignedTo == Me && r.dueDate == ""
    ensures r.priority == Normal && r.repeat == NoRepeat
  {
    DefaultForm
  }

  /** The title input is `required`, so the browser's constraint validation keeps the
      submit event from reaching `handleSubmit` while the title is empty. */
  function SubmitTask(f: Form, user: Option<UserId>, toIso: string -> Option<string>): (r: Option<Result<TaskRow, SubmitError>>)
    ensures r.None? <==> f.title == ""
    ensures r.Some? ==> r.value == BuildTask(f, user, toIso)
    ensures r.Some? && r.value.Success? ==> r.value.value.title != ""
  {
    if f.title == "" then None else Some(BuildTask(f, user, toIso))
  }

  /** A freshly reset form cannot be submitted; once a title is typed it builds an undated,
      normal, non-repeating task assigned to and created by the viewer. */
  lemma ResetThenTitleBuildsPersonalTask(f: Form, title: string, user: Option<UserId>, toIso: string -> Option<string>)
    requires SignedIn(user)
    ensures SubmitTask(Reset(f), user, toIso).None?
    ensures title != "" ==>
              SubmitTask(Reset(f).(title := title), user, toIso)
              == Some(Success(TaskRow(title, user.value, user.value, None, Normal, NoRepeat, Pending)))
  {
  }

  /** `onSuccess` marks every cached query under the `my-tasks` and `group-tasks` prefixes
      stale, for every user, leaves all other queries as they were, and resets the form. */
  function SettleCreate(f: Form, c: Cache, succeeded: bool): (r: (Form, Cache))
    ensures succeeded ==> r.0 == DefaultForm && r.1.Keys == c.Keys
    ensures succeeded ==> forall k :: k in c && (MyTasksKey <= k || GroupTasksKey <= k) ==> r.1[k] == Stale
    ensures succeeded ==> forall k :: k in c && !(MyTasksKey <= k) && !(GroupTasksKey <= k) ==> r.1[k] == c[k]
    ensures succeeded ==> forall u :: MyTasksQuery(u) in c ==> r.1[MyTasksQuery(u)] == Stale
    ensures succeeded ==> forall u :: GroupTasksQuery(u) in c ==> r.1[GroupTasksQuery(u)] == Stale
    ensures !succeeded ==> r == (f, c)
  {
    if succeeded then (Reset(f), Invalidate(Invalidate(c, MyTasksKey), GroupTasksKey)) else (f, c)
  }

  /** Creating a task leaves the chat list and every room's messages as cached. */
  lemma CreateLeavesChatsAlone(f: Form, c: Cache, room: RoomId)
    ensures var c' := SettleCreate(f, c, true).1;
            && (UserChatroomsKey in c ==> c'[UserChatroomsKey] == c[UserChatroomsKey])
            && (MessagesKey(room) in c ==> c'[MessagesKey(room)] == c[MessagesKey(room)])
  {
    assert UserChatroomsKey[0] != MyTasksKey[0] && UserChatroomsKey[0] != GroupTasksKey[0];
    assert MessagesKey(room)[0] != MyTasksKey[0] && MessagesKey(room)[0] != GroupTasksKey[0];
  }

  /** Settling a second success changes nothing more in the cache. */
  lemma SettleCreateIdempotent(f: Form, c: Cache)
    ensures var r := SettleCreate(f, c, true);
            SettleCreate(r.0, r.1, true).1 == r.1
  {
    var c1 := Invalidate(c, MyTasksKey);
    var c2 := Invalidate(c1, GroupTasksKey);
    InvalidateCommutes(c2, MyTasksKey, GroupTasksKey);
    InvalidateCommutes(c1, MyTasksKey, GroupTasksKey);
    InvalidateIdempotent(c, MyTasksKey);
    InvalidateIdempotent(c1, GroupTasksKey);
  }

  /** A member row of `group_members` with its joined profile. */
  datatype GroupMember = GroupMember(userId: UserId, profile: Option<Profile>)

  datatype Group = Group(id: string, name: string, members: Option<seq<GroupMember>>)

  /** A row of the viewer's `group_members` with its joined `group`, which can be null. */
  datatype MembershipRow = MembershipRow(group: Option<Group>)

  /** The joined group of each row, null where the join found none, in row order. */
  function JoinedGroups(rows: seq<MembershipRow>): (r: seq<Option<Group>>)
    ensures |r| == |rows|
    ensures forall i :: 0 <= i < |rows| ==> r[i] == rows[i].group
  {
    seq(|rows|, i requires 0 <= i < |rows| => rows[i].group)
  }

  /** The viewer's groups: the joined groups in row order, each as often as it is
      joined, with the null joins dropped. */
  function Groups(rows: seq<MembershipRow>): (r: seq<Group>)
    ensures |r| <= |rows|
    ensures forall g :: g in r <==> MembershipRow(Some(g)) in rows
    ensures IsSubsequence(Lift(r), JoinedGroups(rows))
    ensures multiset(Lift(r)) == multiset(JoinedGroups(rows))[None := 0]
  {
    var r := Somes(JoinedGroups(rows));
    assert forall g :: Some(g) in JoinedGroups(rows) <==> MembershipRow(Some(g)) in rows by {
      forall g ensures Some(g) in JoinedGroups(rows) ==> MembershipRow(Some(g)) in rows {
        if Some(g) in JoinedGroups(rows) {
          var i :| 0 <= i < |rows| && JoinedGroups(rows)[i] == Some(g);
          assert rows[i] == MembershipRow(Some(g));
        }
      }
    }
    r
  }

  /** When every row's join found its group, the groups are exactly the rows' groups, in order. */
  lemma GroupsAllJoined(rows: seq<MembershipRow>)
    requires forall i :: 0 <= i < |rows| ==> rows[i].group.Some?
    ensures |Groups(rows)| == |rows|
    ensures forall i :: 0 <= i < |rows| ==> Groups(rows)[i] == rows[i].group.value
  {
    var gs := seq(|rows|, i requires 0 <= i < |rows| && rows[i].group.Some? => rows[i].group.value);
    assert Lift(gs) == JoinedGroups(rows);
    SomesOfLift(gs);
  }

  /** The `user-groups` query: no groups without a session or without data, else the
      viewer's groups from the returned rows, in row order. */
  function UserGroups(user: Option<UserId>, data: Option<seq<MembershipRow>>): (r: seq<Group>)
    ensures !SignedIn(user) || data.None? ==> r == []
    ensures SignedIn(user) && data.Some? ==> r == Groups(data.value)
    ensures SignedIn(user) && data.Some? ==> forall g :: g in r <==> MembershipRow(Some(g)) in data.value
  {
    if !SignedIn(user) || data.None? then [] else Groups(data.value)
  }

  /** The joined profile of each member, null where the join found none, in member order. */
  function MemberProfiles(ms: seq<GroupMember>): (r: seq<Option<Profile>>)
    ensures |r| == |ms|
    ensures forall i :: 0 <= i < |ms| ==> r[i] == ms[i].profile
  {
    seq(|ms|, i requires 0 <= i < |ms| => ms[i].profile)
  }

  /** The non-null profiles of one group's members, in member order and with their
      multiplicity. */
  function Profiles(ms: seq<GroupMember>): (r: seq<Profile>)
    ensures |r| <= |ms|
    ensures forall p :: p in r <==> exists i :: 0 <= i < |ms| && ms[i].profile == Some(p)
    ensures IsSubsequence(Lift(r), MemberProfiles(ms))
    ensures multiset(Lift(r)) == multiset(MemberProfiles(ms))[None := 0]
  {
    var r := Somes(MemberProfiles(ms));
    assert forall p :: Some(p) in MemberProfiles(ms) ==> exists i :: 0 <= i < |ms| && ms[i].profile == Some(p);
    r
  }

  function GroupProfiles(g: Group): seq<Profile> {
    if g.members.Some? then Profiles(g.members.value) else []
  }

  /** `allMembers`: every group's member profiles, concatenated in group order. */
  function AllMembers(groups: seq<Group>): (r: seq<Profile>)
    ensures forall p :: p in r <==> exists i :: 0 <= i < |groups| && p in GroupProfiles(groups[i])
  {
    if groups == [] then []
    else
      var rest := AllMembers(groups[1..]);
      assert forall i :: 0 < i < |groups| ==> groups[i] == groups[1..][i - 1];
      GroupProfiles(groups[0]) + rest
  }

  /** One group contributes exactly its members' non-null profiles, in member order. */
  lemma AllMembersOne(g: Group)
    ensures AllMembers([g]) == GroupProfiles(g)
  {
    assert [g][1..] == [];
  }

  /** Listing two runs of groups lists the first run's members, then the second's. */
  lemma {:induction false} AllMembersAppend(a: seq<Group>, b: seq<Group>)
    ensures AllMembers(a + b) == AllMembers(a) + AllMembers(b)
  {
    if a == [] {
      assert a + b == b;
    } else {
      assert (a + b)[0] == a[0];
      assert (a + b)[1..] == a[1..] + b;
      AllMembersAppend(a[1..], b);
    }
  }

  /** Rows of `group_members` across the groups, null profiles included. */
  function MemberRowCount(groups: seq<Group>): nat {
    if groups == [] then 0
    else (if groups[0].members.Some? then |groups[0].members.value| else 0) + MemberRowCount(groups[1..])
  }

  /** There are never more choices than membership rows; fewer when some profiles are null. */
  lemma {:induction false} AllMembersBound(groups: seq<Group>)
    ensures |AllMembers(groups)| <= MemberRowCount(groups)
  {
    if groups != [] {
      AllMembersBound(groups[1..]);
      assert AllMembers(groups) == GroupProfiles(groups[0]) + AllMembers(groups[1..]);
    }
  }
}

=== FILE: text.dfy ===
/** The two string operations the components rely on: `String.prototype.trim`
    and the decimal rendering of a count inside a template literal. */
module Text {

  /** ECMAScript WhiteSpace and LineTerminator code points, the set `trim` strips. */
  predicate IsWhitespace(c: char) {
    || c == '\t' || c == '\n' || c == '\U{000B}' || c == '\U{000C}' || c == '\r'
    || c == ' ' || c == '\U{00A0}' || c == '\U{1680}'
    || ('\U{2000}' <= c <= '\U{200A}')
    || c == '\U{2028}' || c == '\U{2029}' || c == '\U{202F}' || c == '\U{205F}'
    || c == '\U{3000}' || c == '\U{FEFF}'
  }

  /** Every character of `s` is whitespace (this includes the empty string). */
  predicate IsBlank(s: string) {
    forall i :: 0 <= i < |s| ==> IsWhitespace(s[i])
  }

  /** Every character of `s` in positions `lo` up to `hi` is whitespace. */
  predicate BlankBetween(s: string, lo: int, hi: int) {
    forall i :: lo <= i < hi && 0 <= i < |s| ==> IsWhitespace(s[i])
  }

  /** The first position at or after `i` that is not whitespace, or `|s|`. */
  function ContentStart(s: string, i: nat): (a: nat)
    requires i <= |s|
    ensures i <= a <= |s| && BlankBetween(s, i, a)
    ensures a < |s| ==> !IsWhitespace(s[a])
    decreases |s| - i
  {
    if i < |s| && IsWhitespace(s[i]) then ContentStart(s, i + 1) else i
  }

  /** The position after the last non-whitespace character at or after `a`, scanning down from `j`. */
  function ContentEnd(s: string, a: nat, j: nat): (e: nat)
    requires a <= j <= |s|
    ensures a <= e <= j && BlankBetween(s, e, j)
    ensures e > a ==> !IsWhitespace(s[e - 1])
    decreases j
  {
    if j > a && IsWhitespace(s[j - 1]) then ContentEnd(s, a, j - 1) else j
  }

  /** `r` occurs in `s` at offset `k` with only whitespace before and after it. */
  predicate PaddedAt(s: string, r: string, k: nat) {
    && k + |r| <= |s|
    && s[k..k + |r|] == r
    && BlankBetween(s, 0, k)
    && BlankBetween(s, k + |r|, |s|)
  }

  /** Trimming: the infix of `s` left after removing leading and trailing whitespace. */
  function Trim(s: string): (r: string)
    ensures PaddedAt(s, r, ContentStart(s, 0))
    ensures r == [] <==> IsBlank(s)
    ensures r == [] || (!IsWhitespace(r[0]) && !IsWhitespace(r[|r| - 1]))
  {
    var a := ContentStart(s, 0);
    var e := ContentEnd(s, a, |s|);
    s[a..e]
  }

  /** Trimming again changes nothing. */
  lemma TrimIdempotent(s: string)
    ensures Trim(Trim(s)) == Trim(s)
  {
    var r := Trim(s);
    if r != [] {
      TrimOfTrimmed(r);
    }
  }

  /** A string with no whitespace at either end is its own trim. */
  lemma TrimOfTrimmed(s: string)
    requires s != [] && !IsWhitespace(s[0]) && !IsWhitespace(s[|s| - 1])
    ensures Trim(s) == s
  {
    assert ContentStart(s, 0) == 0;
    assert ContentEnd(s, 0, |s|) == |s|;
  }

  predicate IsDigit(c: char) {
    '0' <= c <= '9'
  }

  function DigitChar(d: nat): (c: char)
    requires d < 10
    ensures IsDigit(c) && (c as int) - ('0' as int) == d
  {
    (('0' as int) + d) as char
  }

  /** Decimal rendering of a non-negative integer, as a template literal prints a number. */
  function Decimal(n: nat): (r: string)
    ensures |r| >= 1
    ensures forall i :: 0 <= i < |r| ==> IsDigit(r[i])
    ensures |r| > 1 ==> r[0] != '0'
  {
    if n < 10 then [DigitChar(n)] else Decimal(n / 10) + [DigitChar(n % 10)]
  }

  /** The number a string of decimal digits denotes. */
  function DecimalValue(s: string): nat
    requires forall i :: 0 <= i < |s| ==> IsDigit(s[i])
  {
    if s == [] then 0
    else
      assert IsDigit(s[|s| - 1]);
      10 * DecimalValue(s[..|s| - 1]) + ((s[|s| - 1] as int) - ('0' as int))
  }

  /** Reading the rendering back yields the number. */
  lemma {:induction false} DecimalRoundTrip(n: nat)
    ensures DecimalValue(Decimal(n)) == n
  {
    if n >= 10 {
      var r := Decimal(n);
      assert r[..|r| - 1] == Decimal(n / 10);
      DecimalRoundTrip(n / 10);
    }
  }

  /** Different counts render differently. */
  lemma DecimalInjective(m: nat, n: nat)
    requires Decimal(m) == Decimal(n)
    ensures m == n
  {
    DecimalRoundTrip(m);
    DecimalRoundTrip(n);
  }
}
